=== FILE: README.md ===
# Spinning: the timing of one animation frame

The program draws three images, one over the other, on a white disc and
turns them back and forth around the centre of the window. Each frame
takes the time since the animation started and folds it into one A-B-A
cycle of 12000 ms. The result is a triangular wave: it rises from 0 to 1
over the first 6000 ms and falls back to 0 over the next 6000 ms. A cubic
ease-in-out curve smooths that wave. The eased value sets three rotation
angles: a half turn for the first image, a quarter turn clockwise for the
second, and a quarter turn counter-clockwise for the third.

This project models that per-frame arithmetic with exact reals. It also
proves what the animation promises:
- the wave stays in [0, 1], repeats every cycle and retraces itself;
- the easing curve keeps [0, 1], fixes 0, 1/2 and 1, is point-symmetric and
  strictly increasing;
- the angles keep their fixed ratios and hit their end poses exactly.

Modules, one per concept:
- `JsNumber` (`js_number.dfy`): JavaScript's `%` with the one divisor the program uses, and `Math.pow(x, 3)`.
- `PingPong` (`ping_pong.dfy`): the un-eased progress, and an independent description of it as the distance to the nearest cycle boundary.
- `Easing` (`easing.dfy`): `easeInOutCubic`.
- `Rotation` (`rotation.dfy`): the three angles.
- `Animation` (`animation.dfy`): the frame callback's early return and the whole pipeline from clock reading to angles.

Notes on the model:
- Durations are constants, as in the source: 6000 ms per leg and 12000 ms per cycle. The comment on the constant says "3 seconds", but the value is 6000. The model uses the value.
- JavaScript's `%` truncates toward zero, so the remainder has the sign of the dividend. The model keeps that. Nothing in the callback stops a clock reading from coming before the origin. When one does, the progress is at or below 0 and the reflection never fires (`PingPong.BeforeOrigin`, `Animation.BeforeOriginTurnsBackwards`). Properties that need a non-negative elapsed time say so in their precondition.
- `Math.PI` is the exact rational value of the double it denotes.

## Model

| member | source | states |
|---|---|---|
| JsNumber.Rem12000 | src/index.ts:75 | `n % 12000` has the sign of `n`, is smaller than 12000 in magnitude, and differs from `n` by a whole number of cycles |
| JsNumber.Rem12000Unique | src/index.ts:75 | any value with those three properties is the remainder, so the remainder is fully determined by them |
| JsNumber.Rem12000AddDivisor | src/index.ts:75 | for a non-negative dividend, adding one cycle does not change the remainder |
| PingPong.Progress | src/index.ts:75-77 | from the origin on, the reflected progress lies in [0, 1]; before the origin it lies in (-2, 0] |
| PingPong.ForwardLeg | src/index.ts:75-77 | during the first 6000 ms the progress is elapsed / 6000, rising linearly from 0 to 1 |
| PingPong.BackwardLeg | src/index.ts:75-77 | from 6000 ms to 12000 ms the progress is (12000 - elapsed) / 6000, falling linearly back to 0 |
| PingPong.Endpoints | src/index.ts:75-77 | the progress is 0 at elapsed 0 and at 12000, and exactly 1 at 6000 (the strict test keeps the raw 1; a non-strict test would give 2 - 1 = 1 as well) |
| PingPong.Periodic | src/index.ts:75-77 | for elapsed >= 0 the progress one full cycle later is the same |
| PingPong.PeriodicMany | src/index.ts:75-77 | for elapsed >= 0 the progress any whole number of cycles later is the same |
| PingPong.Palindrome | src/index.ts:75-77 | within a cycle the progress at `e` equals the progress at `12000 - e`, so the way back retraces the way out |
| PingPong.BeforeOrigin | src/index.ts:75-77 | a clock reading less than one cycle before the origin gives the negative progress elapsed / 6000 |
| PingPong.ProgressIsBoundaryDistance | src/index.ts:75-77 | for elapsed >= 0 the progress equals the distance to the nearest multiple of 12000, divided by 6000 |
| PingPong.NoJumps | src/index.ts:75-77 | the progress changes by at most |a - b| / 6000 between any two times a, b >= 0, across cycle boundaries too |
| Easing.EaseInOutCubic | src/index.ts:31-33 | no contract of its own; the rows below state its properties |
| Easing.StaysInUnit | src/index.ts:31-33 | the curve maps [0, 1] into [0, 1]; inputs below 1/2 go into [0, 1/2] and the rest into [1/2, 1] |
| Easing.FixedPoints | src/index.ts:31-33 | the curve gives 0 at 0, 1/2 at 1/2 and 1 at 1, and the ease-in branch also gives 1/2 at 1/2, so the branches meet |
| Easing.PointSymmetric | src/index.ts:31-33 | for every t, ease(1 - t) = 1 - ease(t): symmetric about (1/2, 1/2) |
| Easing.StrictlyIncreasing | src/index.ts:31-33 | on [0, 1], s < t implies ease(s) < ease(t) |
| Easing.SlowStartSlowEnd | src/index.ts:30-33 | the curve is at or below the diagonal on [0, 1/2] and at or above it on [1/2, 1]: a slow start and a slow end |
| Rotation.RotationAngles | src/index.ts:82-84 | the first angle is always twice the second, and the third is the negation of the second |
| Rotation.ProgressFromFirstAngle | src/index.ts:82 | dividing the first angle by `Math.PI` gives back the eased progress |
| Rotation.AtRest | src/index.ts:82-84 | all three angles are 0 exactly when the eased progress is 0 |
| Rotation.FullSwing | src/index.ts:82-84 | at eased progress 1 the angles are pi (180 degrees), pi/2 (90 degrees clockwise) and -pi/2 (90 degrees counter-clockwise) |
| Rotation.WithinSwing | src/index.ts:82-84 | for an eased progress in [0, 1] each angle lies between 0 and its end pose |
| Rotation.Monotone | src/index.ts:82-84 | more progress turns the first two images further clockwise and the third further counter-clockwise |
| Animation.Animate | src/index.ts:52-84 | a frame draws exactly when the origin is set and non-zero, because the origin is checked for truthiness; otherwise the callback returns early |
| Animation.AnglesWithinSwing | src/index.ts:75-84 | from the origin on, every drawn frame has each angle between 0 and its end pose |
| Animation.Periodic | src/index.ts:75-84 | from the origin on, the frame any whole number of 12000 ms cycles later is identical |
| Animation.Palindrome | src/index.ts:75-84 | within the first cycle the frame at `origin + e` equals the frame at `origin + 12000 - e` |
| Animation.ForwardLegTurnsSteadily | src/index.ts:75-84 | during the forward leg, a later time turns every image strictly further in its direction |
| Animation.ForwardLegMirrorsAboutMidpoint | src/index.ts:75-84 | during the forward leg, the first angles at 3000 - x and 3000 + x ms add up to pi |
| Animation.BeforeOriginTurnsBackwards | src/index.ts:75-84 | a clock reading before the origin gives a first angle at or below 0 |
| Animation.Scenarios | src/index.ts:75-84 | at 0, 3000, 6000, 9000 and 12000 ms the angles are (0, 0, 0), (pi/2, pi/4, -pi/4), (pi, pi/2, -pi/2), the same as at 3000, and the same as at 0 |

## Left out

- Canvas creation, window sizing and obtaining the 2D context (src/index.ts:4-13): DOM calls. The thrown error when there is no context is their only failure, and by the time a frame runs the context exists.
- Loading the three images and waiting for all of them (src/index.ts:16-23, 36-50): asynchronous browser resource loading. The model starts from a `Clock` that either has no origin or has the origin the load handler set.
- The `requestAnimationFrame` loop (src/index.ts:49, 94): host scheduling. A `Drawn` frame stands for "painted and scheduled the next frame". A `Skipped` frame stands for "returned early and scheduled nothing".
- All painting (src/index.ts:55-72, 86-92, 97-108): the black fill, the white disc, the compositing modes and the rotated image draws are canvas calls. The model stops at the angles they receive.
- IEEE-754 rounding, NaN and infinities: the model works over exact reals.
- JsNumber.Rem12000: models `%` only for the divisor 12000, the only one the program uses. A symbolic divisor would turn every proof about the remainder into nonlinear arithmetic.
- The stylesheet import (src/index.ts:1).

=== FILE: animation.dfy ===
/**
  One frame of the animation callback, without the painting: the clock
  reading is turned into ping-pong progress, eased, and turned into the
  three rotation angles the images are drawn with.
 */
module Animation {
  import PingPong
  import Easing
  import JsNumber
  import opened Rotation

  /** The animation clock: no origin until the three images have loaded,
      then the time the animation started. */
  datatype Clock = NotStarted | StartedAt(origin: real)

  /** What one call of the frame callback does: return early without
      drawing (and without scheduling another frame), or draw the images
      at the given angles and schedule the next frame. */
  datatype Frame = Skipped | Drawn(angles: Angles)

  /** A clock that has started at a non-zero origin. */
  predicate Running(clock: Clock) {
    clock.StartedAt? && clock.origin != 0.0
  }

  /** The frame callback for clock reading `time`. The origin is checked for
      truthiness, so an origin of exactly 0 also skips the frame. */
  function Animate(time: real, clock: Clock): (f: Frame)
    ensures f.Drawn? <==> Running(clock)
  {
    match clock
    case NotStarted => Skipped
    case StartedAt(origin) =>
      if origin == 0.0 then Skipped
      else
        var progress := PingPong.Progress(time - origin);
        Drawn(RotationAngles(Easing.EaseInOutCubic(progress)))
  }

  /** From the origin on, every image stays between its start and end pose. */
  lemma AnglesWithinSwing(time: real, clock: Clock)
    requires Running(clock) && clock.origin <= time
    ensures Animate(time, clock).Drawn?
    ensures var a := Animate(time, clock).angles;
      && 0.0 <= a.first <= MathPi
      && 0.0 <= a.second <= MathPi / 2.0
      && -MathPi / 2.0 <= a.third <= 0.0
  {
    var p := PingPong.Progress(time - clock.origin);
    Easing.StaysInUnit(p);
    WithinSwing(Easing.EaseInOutCubic(p));
  }

  /** The frame repeats every full A-B-A cycle. */
  lemma {:induction false} Periodic(time: real, clock: Clock, cycles: nat)
    requires Running(clock) && clock.origin <= time
    ensures Animate(time + cycles as real * PingPong.TotalDuration, clock) == Animate(time, clock)
  {
    var elapsed := time - clock.origin;
    PingPong.PeriodicMany(elapsed, cycles);
    assert time + cycles as real * PingPong.TotalDuration - clock.origin
        == elapsed + cycles as real * PingPong.TotalDuration;
  }

  /** Within the first cycle the poses on the way back are those of the way
      out, in reverse order. */
  lemma Palindrome(time: real, clock: Clock)
    requires Running(clock)
    requires clock.origin <= time <= clock.origin + PingPong.TotalDuration
    ensures Animate(time, clock) == Animate(2.0 * clock.origin + PingPong.TotalDuration - time, clock)
  {
    var elapsed := time - clock.origin;
    PingPong.Palindrome(elapsed);
    assert 2.0 * clock.origin + PingPong.TotalDuration - time - clock.origin
        == PingPong.TotalDuration - elapsed;
  }

  /** On the way out every image keeps turning in its own direction: later
      in the forward leg means strictly further round. */
  lemma ForwardLegTurnsSteadily(s: real, t: real, clock: Clock)
    requires Running(clock)
    requires clock.origin <= s < t <= clock.origin + PingPong.AnimationDuration
    ensures Animate(s, clock).angles.first < Animate(t, clock).angles.first
    ensures Animate(s, clock).angles.second < Animate(t, clock).angles.second
    ensures Animate(s, clock).angles.third > Animate(t, clock).angles.third
  {
    PingPong.ForwardLeg(s - clock.origin);
    PingPong.ForwardLeg(t - clock.origin);
    var ps := PingPong.Progress(s - clock.origin);
    var pt := PingPong.Progress(t - clock.origin);
    Easing.StrictlyIncreasing(ps, pt);
    Monotone(Easing.EaseInOutCubic(ps), Easing.EaseInOutCubic(pt));
  }

  /** The forward leg is point-symmetric about its midpoint: the first
      image's angles at equal distances before and after the midpoint add up
      to a half turn. */
  lemma ForwardLegMirrorsAboutMidpoint(x: real, clock: Clock)
    requires Running(clock)
    requires 0.0 <= x <= PingPong.AnimationDuration / 2.0
    ensures var mid := clock.origin + PingPong.AnimationDuration / 2.0;
      Animate(mid - x, clock).angles.first + Animate(mid + x, clock).angles.first == MathPi
  {
    var mid := clock.origin + PingPong.AnimationDuration / 2.0;
    PingPong.ForwardLeg(mid - x - clock.origin);
    PingPong.ForwardLeg(mid + x - clock.origin);
    var p := PingPong.Progress(mid - x - clock.origin);
    assert PingPong.Progress(mid + x - clock.origin) == 1.0 - p;
    Easing.PointSymmetric(p);
  }

  /** A clock reading before the origin, which nothing in the callback rules
      out, turns the first image the wrong way (or not at all). */
  lemma BeforeOriginTurnsBackwards(time: real, clock: Clock)
    requires Running(clock) && time < clock.origin
    ensures Animate(time, clock).angles.first <= 0.0
  {
    var p := PingPong.Progress(time - clock.origin);
    JsNumber.MulNonNeg(-p, p * p);
    assert JsNumber.Cube(p) == -((-p) * (p * p));
  }

  /** Five sample frames: at the origin, a quarter, half, three
      quarters and all of the way through the first cycle. */
  lemma Scenarios(clock: Clock)
    requires Running(clock)
    ensures Animate(clock.origin, clock) == Drawn(Angles(0.0, 0.0, 0.0))
    ensures Animate(clock.origin + 3000.0, clock) == Drawn(Angles(MathPi / 2.0, MathPi / 4.0, -MathPi / 4.0))
    ensures Animate(clock.origin + 6000.0, clock) == Drawn(Angles(MathPi, MathPi / 2.0, -MathPi / 2.0))
    ensures Animate(clock.origin + 9000.0, clock) == Animate(clock.origin + 3000.0, clock)
    ensures Animate(clock.origin + 12000.0, clock) == Animate(clock.origin, clock)
  {
    PingPong.ForwardLeg(0.0);
    PingPong.ForwardLeg(3000.0);
    PingPong.ForwardLeg(6000.0);
    PingPong.BackwardLeg(9000.0);
    PingPong.BackwardLeg(12000.0);
    Easing.FixedPoints();
  }
}

=== FILE: easing.dfy ===
/**
  The cubic ease-in-out curve applied to the ping-pong progress: it starts
  slowly, speeds up through the middle and slows down into the end, without
  leaving [0, 1].
 */
module Easing {
  import opened JsNumber

  /** `easeInOutCubic`: `4t^3` below one half, `1 - (2 - 2t)^3 / 2` from one
      half on. */
  function EaseInOutCubic(t: real): real {
    if t < 0.5 then 4.0 * Cube(t) else 1.0 - Cube(-2.0 * t + 2.0) / 2.0
  }

  /** The curve maps [0, 1] into [0, 1]; more precisely the ease-in half
      stays in [0, 1/2] and the ease-out half in [1/2, 1]. */
  lemma StaysInUnit(t: real)
    requires 0.0 <= t <= 1.0
    ensures 0.0 <= EaseInOutCubic(t) <= 1.0
    ensures t < 0.5 ==> EaseInOutCubic(t) <= 0.5
    ensures 0.5 <= t ==> 0.5 <= EaseInOutCubic(t)
  {
    if t < 0.5 {
      CubeBounds(t, 0.5);
    } else {
      CubeBounds(-2.0 * t + 2.0, 1.0);
    }
  }

  /** The curve fixes the start, the middle and the end of the motion, and
      its two pieces meet at one half: the ease-in piece would give one half
      there too. */
  lemma FixedPoints()
    ensures EaseInOutCubic(0.0) == 0.0
    ensures EaseInOutCubic(0.5) == 0.5 == 4.0 * Cube(0.5)
    ensures EaseInOutCubic(1.0) == 1.0
  {
  }

  /** Point symmetry about (1/2, 1/2): easing out mirrors easing in. This
      holds for every real, not only on [0, 1]. */
  lemma PointSymmetric(t: real)
    ensures EaseInOutCubic(1.0 - t) == 1.0 - EaseInOutCubic(t)
  {
    if t < 0.5 {
      assert -2.0 * (1.0 - t) + 2.0 == 2.0 * t;
      CubeScale(2.0, t);
    } else if t > 0.5 {
      assert -2.0 * t + 2.0 == 2.0 * (1.0 - t);
      CubeScale(2.0, 1.0 - t);
    }
  }

  /** On [0, 1] the curve is strictly increasing: the rotation never stalls
      or backs up within a leg. */
  lemma StrictlyIncreasing(s: real, t: real)
    requires 0.0 <= s < t <= 1.0
    ensures EaseInOutCubic(s) < EaseInOutCubic(t)
  {
    if t < 0.5 {
      CubeStrictlyIncreasing(s, t);
    } else if s >= 0.5 {
      CubeStrictlyIncreasing(-2.0 * t + 2.0, -2.0 * s + 2.0);
    } else {
      StaysInUnit(s);
      StaysInUnit(t);
    }
  }

  /** The ease-in half lags behind linear motion and the ease-out half is
      ahead of it: the curve is below the diagonal up to one half and above
      it from one half to 1. */
  lemma SlowStartSlowEnd(t: real)
    requires 0.0 <= t <= 1.0
    ensures t <= 0.5 ==> EaseInOutCubic(t) <= t
    ensures 0.5 <= t ==> t <= EaseInOutCubic(t)
  {
    if t < 0.5 {
      LagsBelowHalf(t);
    } else {
      LagsBelowHalf(1.0 - t);
      PointSymmetric(1.0 - t);
    }
  }

  // Small facts about cubes.

  /** On [0, 1/2], `4t^3 <= t`, since `t - 4t^3 = t (1 - 2t) (1 + 2t)`. */
  lemma LagsBelowHalf(t: real)
    requires 0.0 <= t <= 0.5
    ensures 4.0 * Cube(t) <= t
  {
    MulNonNeg(1.0 - 2.0 * t, 1.0 + 2.0 * t);
    MulNonNeg(t, (1.0 - 2.0 * t) * (1.0 + 2.0 * t));
    assert t * ((1.0 - 2.0 * t) * (1.0 + 2.0 * t)) == t - 4.0 * Cube(t);
  }

  lemma CubeScale(c: real, x: real)
    ensures Cube(c * x) == Cube(c) * Cube(x)
  {
    assert (c * x) * (c * x) * (c * x) == (c * c * c) * (x * x * x);
  }

  lemma CubeStrictlyIncreasing(x: real, y: real)
    requires 0.0 <= x < y
    ensures Cube(x) < Cube(y)
  {
    MulPos(y - x, y * y + x * y + x * x);
    assert (y - x) * (y * y + x * y + x * x) == Cube(y) - Cube(x);
  }

  /** A cube of a value in [0, b] lies in [0, b^3]. */
  lemma CubeBounds(x: real, b: real)
    requires 0.0 <= x <= b
    ensures 0.0 <= Cube(x) <= Cube(b)
  {
    if x < b {
      CubeStrictlyIncreasing(x, b);
    }
    MulNonNeg(x, x * x);
    assert Cube(x) == x * (x * x);
  }
}

=== FILE: js_number.dfy ===
/**
  The pieces of JavaScript number arithmetic the animation relies on, over
  exact reals. IEEE-754 rounding is not modelled.
 */
module JsNumber {

  /** True when `x` is a whole number. */
  predicate IsIntegral(x: real) {
    x.Floor as real == x
  }

  /** `Math.pow(x, 3)`. */
  function Cube(x: real): real {
    x * x * x
  }

  // Sign facts about products, for the nonlinear steps of proofs.

  lemma MulPos(a: real, b: real)
    requires 0.0 < a && 0.0 < b
    ensures 0.0 < a * b
  {
  }

  lemma MulNonNeg(a: real, b: real)
    requires 0.0 <= a && 0.0 <= b
    ensures 0.0 <= a * b
  {
  }

  /** JavaScript's `n % d` for the divisor `d == 12000`, the only divisor
      the animation uses. Division truncates toward zero, so the remainder
      carries the sign of the dividend, is smaller than the divisor in
      magnitude, and differs from `n` by a whole number of divisors. */
  function Rem12000(n: real): (r: real)
    ensures 0.0 <= n ==> 0.0 <= r < 12000.0
    ensures n < 0.0 ==> -12000.0 < r <= 0.0
    ensures IsIntegral((n - r) / 12000.0)
  {
    if n >= 0.0 then NonNegRem12000(n)
    else
      var r := NonNegRem12000(-n);
      var q := (-n - r) / 12000.0;
      assert (n - -r) / 12000.0 == -q;
      assert (-q).Floor == -(q.Floor);
      -r
  }

  function NonNegRem12000(n: real): (r: real)
    requires 0.0 <= n
    ensures 0.0 <= r < 12000.0
    ensures IsIntegral((n - r) / 12000.0)
  {
    var q := (n / 12000.0).Floor;
    var r := n - 12000.0 * q as real;
    assert (n - r) / 12000.0 == q as real;
    r
  }

  /** `Rem12000` is the only value with the sign of the dividend, magnitude
      below the divisor, and a whole number of divisors away from the dividend. */
  lemma Rem12000Unique(n: real, k: int, r: real)
    requires 0.0 <= n ==> 0.0 <= r < 12000.0
    requires n < 0.0 ==> -12000.0 < r <= 0.0
    requires n == k as real * 12000.0 + r
    ensures Rem12000(n) == r
  {
    var r' := Rem12000(n);
    var j := ((n - r') / 12000.0).Floor;
    assert n == j as real * 12000.0 + r';
    assert (j - k) as real * 12000.0 == r - r';
    assert -1.0 < (j - k) as real < 1.0;
  }

  /** The remainder of a non-negative dividend is unchanged by adding one divisor. */
  lemma Rem12000AddDivisor(n: real)
    requires n >= 0.0
    ensures Rem12000(n + 12000.0) == Rem12000(n)
  {
    var r := Rem12000(n);
    var k := ((n - r) / 12000.0).Floor;
    assert n == k as real * 12000.0 + r;
    Rem12000Unique(n + 12000.0, k + 1, r);
  }
}

=== FILE: ping_pong.dfy ===
/**
  The un-eased timeline of the animation: the time since the clock origin is
  folded into one A-B-A cycle, scaled by the length of one leg, and mirrored
  on the way back, giving a triangular wave 0 -> 1 -> 0.
 */
module PingPong {
  import JsNumber

  /** Length of one leg of the motion (A to B, or B back to A), in milliseconds. */
  const AnimationDuration: real := 6000.0

  /** Length of the full A-B-A cycle. */
  const TotalDuration: real := AnimationDuration * 2.0

  function Abs(x: real): real {
    if x < 0.0 then -x else x
  }

  /** Progress through the current leg, before easing, for a time `elapsed`
      since the clock origin. The frame callback does not guard against a
      clock reading before the origin; there the remainder is at or below 0,
      the reflection never fires, and the progress can leave [0, 1]. */
  function Progress(elapsed: real): (p: real)
    ensures 0.0 <= elapsed ==> 0.0 <= p <= 1.0
    ensures elapsed < 0.0 ==> -2.0 < p <= 0.0
  {
    var raw := JsNumber.Rem12000(elapsed) / AnimationDuration;
    if raw > 1.0 then 2.0 - raw else raw
  }

  /** On the forward leg progress grows linearly from 0 to 1. */
  lemma ForwardLeg(elapsed: real)
    requires 0.0 <= elapsed <= AnimationDuration
    ensures Progress(elapsed) == elapsed / AnimationDuration
  {
    JsNumber.Rem12000Unique(elapsed, 0, elapsed);
  }

  /** On the backward leg progress falls linearly from 1 back to 0, reaching
      0 exactly when the cycle wraps. */
  lemma BackwardLeg(elapsed: real)
    requires AnimationDuration <= elapsed <= TotalDuration
    ensures Progress(elapsed) == (TotalDuration - elapsed) / AnimationDuration
  {
    if elapsed < TotalDuration {
      JsNumber.Rem12000Unique(elapsed, 0, elapsed);
    } else {
      JsNumber.Rem12000Unique(elapsed, 1, 0.0);
    }
  }

  /** The motion starts at A, reaches B exactly at the end of the first leg,
      and is back at A when the cycle wraps. At the end of the first leg the
      strict reflection test keeps the raw progress of 1; a non-strict test
      would reflect it to 2 - 1, the same value. */
  lemma Endpoints()
    ensures Progress(0.0) == 0.0
    ensures Progress(AnimationDuration) == 1.0
    ensures Progress(TotalDuration) == 0.0
  {
    ForwardLeg(0.0);
    ForwardLeg(AnimationDuration);
    BackwardLeg(TotalDuration);
  }

  /** One full cycle later the progress is the same. */
  lemma Periodic(elapsed: real)
    requires 0.0 <= elapsed
    ensures Progress(elapsed + TotalDuration) == Progress(elapsed)
  {
    JsNumber.Rem12000AddDivisor(elapsed);
  }

  /** Any whole number of cycles later the progress is the same. */
  lemma {:induction false} PeriodicMany(elapsed: real, cycles: nat)
    requires 0.0 <= elapsed
    ensures Progress(elapsed + cycles as real * TotalDuration) == Progress(elapsed)
  {
    if cycles > 0 {
      var before := elapsed + (cycles - 1) as real * TotalDuration;
      PeriodicMany(elapsed, cycles - 1);
      Periodic(before);
      assert before + TotalDuration == elapsed + cycles as real * TotalDuration;
    }
  }

  /** Within a cycle the motion is a palindrome: the way back retraces the
      way out (A -> B -> A). */
  lemma Palindrome(elapsed: real)
    requires 0.0 <= elapsed <= TotalDuration
    ensures Progress(elapsed) == Progress(TotalDuration - elapsed)
  {
    if elapsed <= AnimationDuration {
      ForwardLeg(elapsed);
      BackwardLeg(TotalDuration - elapsed);
    } else {
      BackwardLeg(elapsed);
      ForwardLeg(TotalDuration - elapsed);
    }
  }

  /** A clock reading less than one cycle before the origin gives a negative
      progress, proportional to how far before the origin it is. */
  lemma BeforeOrigin(elapsed: real)
    requires -TotalDuration < elapsed < 0.0
    ensures Progress(elapsed) == elapsed / AnimationDuration < 0.0
  {
    JsNumber.Rem12000Unique(elapsed, 0, elapsed);
  }

  // An independent description of the same wave: the distance from the
  // elapsed time to the nearest cycle boundary, a whole multiple of the
  // cycle length.

  /** The distance from `elapsed` to the nearest whole multiple of the cycle. */
  ghost function BoundaryDistance(elapsed: real): (dist: real)
    requires 0.0 <= elapsed
    ensures 0.0 <= dist <= AnimationDuration
  {
    var k := (elapsed / TotalDuration).Floor as real;
    var sinceLast := elapsed - k * TotalDuration;
    var untilNext := (k + 1.0) * TotalDuration - elapsed;
    if sinceLast <= untilNext then sinceLast else untilNext
  }

  /** No cycle boundary is closer than `BoundaryDistance`. */
  lemma BoundaryDistanceIsNearest(elapsed: real, j: int)
    requires 0.0 <= elapsed
    ensures BoundaryDistance(elapsed) <= Abs(elapsed - j as real * TotalDuration)
  {
    var k := (elapsed / TotalDuration).Floor;
    if j <= k {
      assert j as real * TotalDuration <= k as real * TotalDuration;
    } else {
      assert (k + 1) as real * TotalDuration <= j as real * TotalDuration;
    }
  }

  /** Some cycle boundary lies exactly `BoundaryDistance` away. */
  lemma BoundaryDistanceIsAttained(elapsed: real) returns (j: int)
    requires 0.0 <= elapsed
    ensures BoundaryDistance(elapsed) == Abs(elapsed - j as real * TotalDuration)
  {
    var k := (elapsed / TotalDuration).Floor;
    var sinceLast := elapsed - k as real * TotalDuration;
    var untilNext := (k + 1) as real * TotalDuration - elapsed;
    j := if sinceLast <= untilNext then k else k + 1;
  }

  /** The ping-pong progress is the distance to the nearest cycle boundary,
      measured in legs. */
  lemma ProgressIsBoundaryDistance(elapsed: real)
    requires 0.0 <= elapsed
    ensures Progress(elapsed) == BoundaryDistance(elapsed) / AnimationDuration
  {
    var k := (elapsed / TotalDuration).Floor;
    var offset := elapsed - k as real * TotalDuration;
    assert 0.0 <= offset < TotalDuration;
    JsNumber.Rem12000Unique(elapsed, k, offset);
  }

  /** Moving the elapsed time moves the distance to the nearest boundary by
      no more than the same amount. */
  lemma BoundaryDistanceNoJumps(a: real, b: real)
    requires 0.0 <= a && 0.0 <= b
    ensures BoundaryDistance(b) <= BoundaryDistance(a) + Abs(a - b)
  {
    var ja := BoundaryDistanceIsAttained(a);
    BoundaryDistanceIsNearest(b, ja);
    var boundary := ja as real * TotalDuration;
    assert Abs(b - boundary) <= Abs(b - a) + Abs(a - boundary);
  }

  /** The wave has no jumps: progress changes by at most one leg per
      `AnimationDuration` of time, across cycle boundaries too. */
  lemma NoJumps(a: real, b: real)
    requires 0.0 <= a && 0.0 <= b
    ensures Abs(Progress(a) - Progress(b)) <= Abs(a - b) / AnimationDuration
  {
    ProgressIsBoundaryDistance(a);
    ProgressIsBoundaryDistance(b);
    BoundaryDistanceNoJumps(a, b);
    BoundaryDistanceNoJumps(b, a);
    var da, db := BoundaryDistance(a), BoundaryDistance(b);
    assert Abs(da - db) <= Abs(a - b);
  }
}

=== FILE: rotation.dfy ===
/**
  The three rotation angles, in radians, derived from the eased progress:
  the first image turns a half turn, the second a quarter turn clockwise and
  the third a quarter turn counter-clockwise over one leg.
 */
module Rotation {

  /** `Math.PI`: the double closest to pi, written out as the exact rational
      it denotes. */
  const MathPi: real := 3.141592653589793115997963468544185161590576171875

  /** The rotation of the first, second and third image. */
  datatype Angles = Angles(first: real, second: real, third: real)

  /** The three angles for an eased progress `p`; the second is always half
      the first and the third the mirror image of the second. */
  function RotationAngles(p: real): (a: Angles)
    ensures a.first == 2.0 * a.second
    ensures a.third == -a.second
  {
    Angles(p * MathPi, (p * MathPi) / 2.0, (-p * MathPi) / 2.0)
  }

  /** The eased progress can be read back from the first angle, so distinct
      progress values give distinct poses. */
  lemma ProgressFromFirstAngle(p: real)
    ensures RotationAngles(p).first / MathPi == p
  {
  }

  /** At progress 0 the images are unrotated, and only there. */
  lemma AtRest(p: real)
    ensures RotationAngles(p) == Angles(0.0, 0.0, 0.0) <==> p == 0.0
  {
    if RotationAngles(p) == Angles(0.0, 0.0, 0.0) {
      ProgressFromFirstAngle(p);
    }
  }

  /** At progress 1 the first image has turned 180 degrees, the second 90
      degrees clockwise and the third 90 degrees counter-clockwise. */
  lemma FullSwing()
    ensures RotationAngles(1.0) == Angles(MathPi, MathPi / 2.0, -MathPi / 2.0)
  {
  }

  /** For a progress in [0, 1] no image turns past its end pose. */
  lemma WithinSwing(p: real)
    requires 0.0 <= p <= 1.0
    ensures 0.0 <= RotationAngles(p).first <= MathPi
    ensures 0.0 <= RotationAngles(p).second <= MathPi / 2.0
    ensures -MathPi / 2.0 <= RotationAngles(p).third <= 0.0
  {
  }

  /** More progress turns the first two images further clockwise and the
      third further counter-clockwise. */
  lemma Monotone(p: real, q: real)
    requires p < q
    ensures RotationAngles(p).first < RotationAngles(q).first
    ensures RotationAngles(p).second < RotationAngles(q).second
    ensures RotationAngles(p).third > RotationAngles(q).third
  {
  }
}
